=== FILE: README.md ===
# Login system core in Dafny

This project models the authentication core of a small PHP login site. The core has five parts:

- the `Auth` class (`includes/auth.php`): `registrarUsuario`, `iniciarSesion`, `cerrarSesion`, `estaLogueado` and `obtenerUsuarioActual`;
- the shared helpers (`includes/functions.php`): `sanitizeInput`, the flash messages, the local arithmetic captcha and `requireAuth`;
- the POST handlers of the registration page and the login page;
- the logout script.

The PHP session is an immutable record. Each key the pages use (`usuario_id`, `login_time`, `success`, `error`, `captcha_answer`, `form_data`, `login_correo`) is an `Option` field of that record. The `usuarios` table is a sequence of rows plus the next `AUTO_INCREMENT` id.

Every operation is a pure function. It takes the session and the table and returns the session and table it leaves behind, plus either a redirect target or the data the page renders.

A page request is two stages:

1. The handler: the logged-in redirect, then the POST block.
2. For a request that did not redirect, the rendering prologue. It reads the preserved form data once, calls `displayMessage`, and calls `generateMathCaptcha`.

So after a failed POST, the error and the preserved fields appear in the rendered view, not in the final session.

Several parts of PHP's own behaviour are written out explicitly:

- `empty()`: `""`, `"0"`, `0` and an unset key are all empty.
- `intval`: skips leading whitespace, reads an optional sign and decimal digits, and saturates to 64 bits.
- `trim`: strips the six default characters.
- `htmlspecialchars` with `ENT_QUOTES`.
- `strlen`: counts UTF-8 bytes.

Password hashing and `filter_var(..., FILTER_VALIDATE_EMAIL)` are foreign services. They are passed in as function values:

- `Auth.Sound` is the hasher's promise that a password verifies against its own hash.
- `Auth.Discriminating` promises that a hash verifies no password other than the one it was made from.

The random salt, the two `rand(1, 9)` draws and `time()` are also inputs.

Notes on what the code does:

- `registrarUsuario` returns success, not the created record.
- Name and email are HTML-escaped when stored (the handler sanitizes them before calling the class). They are escaped again when printed into the form; that second escaping is not modelled.
- The login does not cache the user's name in the session. The welcome flash re-reads the row by id.
- Email uniqueness is enforced only by the check in `registrarUsuario`. `Users.Valid` states it as an invariant of the table.

## Model

| member | source | states |
|---|---|---|
| Php.EmptyText | Login/includes/functions.php:58 | `empty()` of a string or an unset key: true for null, `""` and `"0"`, false for any other string (also register.php line 40) |
| Php.EmptyInt | Login/includes/auth.php:124 | `empty()` of an integer or an unset key: true for null and 0, false for any other integer |
| Php.Decimal | Login/includes/functions.php:83 | the decimal text PHP prints for a number is non-empty, all digits, and has no leading zero |
| Php.DigitsValueOfDecimal | Login/includes/functions.php:83 | reading the printed digits back as a number gives the number printed |
| Php.Saturate | Login/includes/functions.php:92 | an out-of-range integer string converts to the nearest 64-bit bound; in-range values are kept |
| Php.Intval | Login/includes/functions.php:92 | `intval` of a string is a 64-bit integer, and is 0 when the string has no leading (signed) integer after whitespace |
| Php.IntvalUnsigned | Login/includes/functions.php:92 | text that starts with a digit is read unsigned, as the saturated value of its leading digits |
| Php.IntvalOfDigits | Login/includes/functions.php:92 | a run of digits followed by a non-digit is read as the saturated value of those digits |
| Php.IntvalOfDecimal | Login/includes/functions.php:83-92 | `intval` reads back any printed in-range number, whatever non-digit text follows it (the question text) |
| Php.IntvalOfDecimalAlone | Login/includes/functions.php:92 | `intval` of exactly the printed sum is the sum |
| Php.IntvalOfNegative | Login/includes/functions.php:92 | a leading minus sign negates the number read |
| Php.IntvalSkipsSpace | Login/includes/functions.php:92 | whitespace before the number does not change what `intval` reads |
| Php.Trim | Login/includes/functions.php:26 | `trim` returns a slice of the input whose ends are not whitespace; everything cut before and after it is whitespace |
| Php.TrimIdempotent | Login/includes/functions.php:26 | trimming twice is the same as trimming once |
| Php.EscapeChar | Login/includes/functions.php:26 | each character is kept, or replaced by an entity `&...;`, and never yields a markup character |
| Php.HtmlSpecialChars | Login/includes/functions.php:26 | the escaped text holds none of `< > " '` and is never shorter than the input |
| Php.DecodeAfterEscapeChar | Login/includes/functions.php:26 | decoding undoes the escape of one character, whatever follows it |
| Php.HtmlDecodeInverts | Login/includes/functions.php:26 | escaping loses nothing: decoding the escaped text gives back the input |
| Php.HtmlSpecialCharsAppend | Login/includes/functions.php:26 | escaping works character by character: escaping a concatenation is concatenating the escapes |
| Php.HtmlSpecialCharsFirst | Login/includes/functions.php:26 | the escaped text of a non-empty string starts with the first character of the first character's escape |
| Php.HtmlSpecialCharsLast | Login/includes/functions.php:26 | the escaped text of a non-empty string ends with the last character of the last character's escape |
| Php.HtmlSpecialCharsKeepsEnds | Login/includes/functions.php:26 | escaping a string that does not start or end with whitespace gives a string that does not either |
| Php.HtmlSpecialCharsEmpty | Login/includes/functions.php:26 | the escaped text is `""` or `"0"` exactly when the input is, so `empty()` gives the same answer before and after escaping |
| Php.EscapeTrimmed | Login/includes/functions.php:26 | escaping trimmed text keeps it trimmed, decodes back to it, and keeps `empty()`'s answer |
| Php.StrLen | Login/includes/auth.php:47 | `strlen` counts UTF-8 bytes: between one and four per character, and one per character exactly for ASCII text |
| Users.FirstMatch | Login/includes/auth.php:79-83 | a `LIMIT 1` lookup returns the first row that matches, or nothing exactly when no row matches |
| Users.FirstMatchAppend | Login/includes/auth.php:79-83 | after appending a row, the lookup finds the old first match if there was one, and otherwise the new row if it matches |
| Users.FindByEmail | Login/includes/auth.php:79-83 | the row found by email is a stored row with that email; nothing is found exactly when no row has it |
| Users.FindById | Login/includes/auth.php:139-143 | the row found by id is a stored row with that id; nothing is found exactly when no row has it |
| Users.Insert | Login/includes/auth.php:63-67 | the insert keeps every existing row and appends one row with the next id, the given fields and the creation time |
| Users.InsertKeepsValid | Login/includes/auth.php:51-67 | inserting a row whose email is not yet present keeps ids positive, fresh and distinct, and keeps emails unique |
| Users.FindInValid | Login/includes/auth.php:139-143 | in a valid table, looking up a stored row's id or email finds exactly that row |
| Helpers.SanitizeInput | Login/includes/functions.php:24-27 | the sanitized text has no markup character and no whitespace at either end; it decodes back to the trimmed input; it is `empty()` exactly when the trimmed input is |
| Helpers.SetSuccess | Login/includes/functions.php:46-49 | the success flash holds the message and nothing else in the session changes |
| Helpers.SetError | Login/includes/functions.php:51-54 | the error flash holds the message and nothing else in the session changes |
| Helpers.DisplayMessage | Login/includes/functions.php:56-67 | each flash is printed exactly when it is not `empty()`, and is removed exactly when it is printed; no non-empty flash remains; the rest of the session is untouched |
| Helpers.DisplayMessageReadOnce | Login/includes/functions.php:56-67 | flashes are read once: a second `displayMessage` prints nothing and changes nothing |
| Helpers.SetThenDisplay | Login/includes/functions.php:46-67 | a flash that was set is the one printed next, and the other slot is printed as before |
| Helpers.GenerateMathCaptcha | Login/includes/functions.php:76-84 | the pending answer becomes the sum (2 to 18) and replaces any earlier one; the question is "a + b = ?"; nothing else changes |
| Helpers.QuestionReadsFirstOperand | Login/includes/functions.php:83 | `intval` of the question text "a + b = ?" reads its first operand a |
| Helpers.CaptchaRejectsFirstOperand | Login/includes/functions.php:83-97 | `intval` of the question text reads its first operand, so typing the question back, or only its first number, is rejected |
| Helpers.VerifyMathCaptcha | Login/includes/functions.php:86-97 | the answer is accepted exactly when one is pending and `intval` of the input equals it; the pending answer is removed either way; nothing else changes |
| Helpers.CaptchaSingleUse | Login/includes/functions.php:94 | once checked, a challenge cannot be passed again, whatever is answered |
| Helpers.CaptchaAcceptsPending | Login/includes/functions.php:86-97 | the printed digits of the pending answer are accepted, and the check removes the pending answer and nothing else |
| Helpers.CaptchaAcceptsTheSum | Login/includes/functions.php:76-97 | the sum of a generated question, typed as digits, is accepted, and it consumes the challenge |
| Helpers.CaptchaRejectsNonNumbers | Login/includes/functions.php:92 | an answer with no leading integer reads as 0, so it never passes a generated challenge |
| Helpers.CaptchaScenario | Login/includes/functions.php:73-97 | "3 + 5 = ?" accepts "8" once, then rejects it |
| Helpers.RequireAuth | Login/includes/functions.php:105-111 | a session whose `usuario_id` is `empty()` gets the error flash and a redirect to the login page; any other session passes through unchanged |
| Auth.RegistrarUsuario | Login/includes/auth.php:40-68 | the checks run in order (email syntax, password byte length at least 6, duplicate email) and the first failure decides the message; success happens exactly when all pass, and then exactly one row with the hash of the password is appended and the old rows are kept |
| Auth.RegistrarKeepsValid | Login/includes/auth.php:51-67 | a successful registration keeps the table's ids fresh and its emails unique |
| Auth.IniciarSesion | Login/includes/auth.php:77-100 | every failure has the same generic message; an unknown email fails; success happens exactly when a row has the email and the password verifies; success sets `usuario_id` and `login_time` and changes nothing else |
| Auth.CerrarSesion | Login/includes/auth.php:108-115 | after logout the session holds no attribute at all |
| Auth.EstaLogueado | Login/includes/auth.php:122-125 | a visitor is logged in exactly when `usuario_id` is set and not 0 |
| Auth.ObtenerUsuarioActual | Login/includes/auth.php:133-144 | nothing is returned when logged out, or when no row has the session's id; otherwise the stored row with that id |
| Auth.RequireAuthMatchesEstaLogueado | Login/includes/functions.php:105-111 | the page gate lets a session through exactly when `estaLogueado` holds |
| Auth.CerrarSesionLogsOut | Login/includes/auth.php:108-115 | after `cerrarSesion` nobody is logged in, protected pages redirect, and logging out twice is the same as once |
| Auth.RegisterThenLogin | Login/includes/auth.php:40-100 | with a sound hasher, logging in with the email and password just registered succeeds, as the new row's id |
| Auth.RegisterThenWrongPassword | Login/includes/auth.php:77-100 | with a collision-free hasher, any other password is refused after registration |
| Auth.DuplicateRegistration | Login/includes/auth.php:51-58 | registering the same email a second time, with a password of at least 6 bytes, fails with the duplicate message and leaves the table unchanged |
| Auth.NoUserEnumeration | Login/includes/auth.php:85-93 | an unknown email and a wrong password give identical results, so the answer does not reveal whether the email exists |
| Auth.LoginThenCurrentUser | Login/includes/auth.php:95-144 | after a successful login in a valid table, the visitor is logged in and the current user is the row found by email |
| RegisterPage.HandlePost | Login/pages/register.php:20-73 | a logged-in visitor goes to the dashboard; the checks run in order: missing field, captcha, password confirmation, then `registrarUsuario`; the first failure sets its message and preserves only name and email; the table changes only on success; a missing field or an empty captcha does not consume the challenge; success happens exactly when every check passes, and it sets the success flash and sends the visitor, still logged out, to the login page |
| RegisterPage.RenderForm | Login/pages/register.php:75-77 | the preserved name and email are shown once and removed; the flashes are printed and cleared; a fresh captcha replaces the old one; login state is untouched |
| RegisterPage.RegisterRequest | Login/pages/register.php:20-77 | a request either ends in the handler's redirect or renders the form with the handler's error, the submitted name and email, a fresh captcha, and a session with no flash or form data left |
| RegisterPage.RegisterKeepsNoSecrets | Login/pages/register.php:63-77 | no password reaches the session: after a request the session holds no text it did not hold before, except the success message |
| RegisterPage.RegisterKeepsInvariants | Login/pages/register.php:54-61 | a request keeps the table valid and leaves a captcha answer in range |
| LoginPage.Welcome | Login/pages/login.php:40 | the welcome flash is the greeting "👋 ¡Bienvenido de nuevo, ", then the user's name, then "!" |
| LoginPage.HandlePost | Login/pages/login.php:14-52 | a logged-in visitor goes to the dashboard; the checks run in order: missing field, captcha, credentials; an unknown email and a wrong password fail alike; every failure keeps the visitor logged out and saves only the email; success happens exactly when every check passes (captcha answer matches, a row has the email, its hash verifies the password), and it authenticates as the first user with that email, consumes the captcha and sets the welcome flash; the table never changes |
| LoginPage.LoginWelcomesUser | Login/pages/login.php:38-41 | in a valid table a successful login welcomes the user found by email, by name |
| LoginPage.RenderForm | Login/pages/login.php:54-55 | the saved email is shown once and removed; the flashes are printed and cleared; a fresh captcha replaces the old one; login state is untouched |
| LoginPage.LoginRequest | Login/pages/login.php:14-55 | a request either ends in the handler's redirect or renders the form with the handler's error, the submitted email and a fresh captcha, with the visitor logged out; every redirect goes to the dashboard |
| LoginPage.NoUserEnumeration | Login/pages/login.php:37-50 | at page level, an unknown email and a wrong password leave the same session and show the same page |
| LoginPage.LoginKeepsNoSecrets | Login/pages/login.php:46-55 | no password reaches the session: after a request the session holds no text it did not hold before, except a welcome message |
| LoginPage.RenderedFailureKeepsNoSecrets | Login/pages/login.php:46-55 | a failed login adds no text at all to the session |
| LoginPage.WelcomeKeepsNoSecrets | Login/pages/login.php:38-41 | a successful login adds only a welcome message to the session's texts |
| Logout.LogoutRequest | Login/logout.php:29-39 | logout redirects to the login page and leaves a session holding only the farewell flash |
| Logout.LogoutIdempotent | Login/logout.php:29-39 | the result does not depend on the starting session, so logging out twice is the same as once |
| Logout.LogoutEndsSession | Login/logout.php:29-39 | on the session record, after logout nobody is logged in, protected pages redirect, and the farewell is shown exactly once (cookie expiry, which may lose this flash, is left out) |
| Flows.RegisterThenLoginFlow | Login/pages/register.php:55-58 | after an accepted registration, the login page shows the confirmation, and the visitor meets `CanLogIn` for the new row: logged out, with that page's captcha sum pending, and with the submitted email and password being the new row's |
| Flows.RegistrationStep | Login/pages/register.php:30-58 | an accepted registration leaves a valid table whose row for the email is the new user, with a verifying hash, and a logged-out visitor with the confirmation pending |
| Flows.PageReady | Login/pages/login.php:54-55 | the login page prints a pending confirmation, leaves a logged-out visitor logged out, and leaves the sum of its two operands as the pending answer |
| Flows.LoginStep | Login/pages/login.php:20-42 | for a visitor meeting `CanLogIn` (so, by `RegisterThenLoginFlow`, right after registering), submitting the captcha answer with the user's email and password redirects to the dashboard, authenticates that user and welcomes them by name |

## Left out

- The GET requests and the HTML of every page. The model keeps only the session effects of rendering: reading form data once, `displayMessage` and `generateMathCaptcha`.
- The `htmlspecialchars` applied to pre-filled fields when they are printed. It changes only the markup, not the state.
- `dashboard.php`, `profile.php`, `index.php` and `config/database.php` are not part of this model.
- The PDO connection and its failures. The model assumes every query succeeds. The connection uses `PDO::ERRMODE_EXCEPTION` (config/database.php line 40), so a failing query throws a `PDOException`. The page's `catch (Exception $e)` (register.php line 63, login.php line 46) then turns its SQLSTATE text into the error flash and saves form_data or login_correo. On the login page, if `obtenerUsuarioActual` throws after `iniciarSesion` succeeded, the form is rendered with `usuario_id` already set. None of these paths is modelled.
- Two branches are dead code in the program itself, so the model has no counterpart for them:
  - "No se pudo completar el registro." (register.php line 61): under `ERRMODE_EXCEPTION`, `execute()` returns true or throws, so `registrarUsuario` never returns false.
  - the trailing "Credenciales incorrectas." (login.php line 44): `iniciarSesion` returns true or throws (auth.php lines 86-99), so it never returns a value that is not true.
- Session identifiers, cookies, `session_start`, `session_destroy` and the cookie expiry in `cerrarSesion`. A session is its attributes only.
- Concurrency: the race between the duplicate-email check and the insert of two simultaneous registrations. Requests are modelled one at a time.
- `password_hash`, `password_verify` and `filter_var` are parameters, not implementations. Their properties appear only as `Sound` and `Discriminating` where a lemma needs them.
- `rand`, `time()` and the hasher's salt are inputs to the functions.
- Email comparison is exact string equality. The database collation, which may fold case, is not modelled.
- Auth.RegisterThenWrongPassword: assumes a hasher with no collisions (`Discriminating`). `PASSWORD_DEFAULT` is bcrypt, which reads only the first 72 bytes of a password, so two passwords that share their first 72 bytes verify against each other's hash and the lemma does not cover them.
- Logout.LogoutEndsSession: holds on the session record only. `cerrarSesion` also sends an expired session cookie, and the `session_start` that follows may reuse the old id, so the browser can drop the session and never show the farewell flash.
- Php.Intval: strings are read as their leading integer. The float forms PHP also accepts ("1e1", "1.5e3") are not modelled. A captcha answer written that way would be read differently by PHP.
- Php.StrLen: counts the UTF-8 bytes of Unicode scalar values. Byte strings that are not valid UTF-8 cannot be expressed.

=== FILE: auth.dfy ===
/** The `Auth` class: registration, login, logout, the logged-in test and current-user lookup, over an
    explicit store and session. Password hashing and email validation are foreign services passed in. */
module Auth {
  import opened Wrappers
  import opened Php
  import opened Sessions
  import opened Users
  import Helpers

  /** `password_hash` / `password_verify`: `hash(password, salt)` is the stored token, `salt` being the
      random salt the real hasher draws itself. */
  datatype Hasher = Hasher(hash: (string, string) -> string, verify: (string, string) -> bool)

  /** The hasher's promise: `verify` accepts the password a token was made from, whatever the salt. */
  ghost predicate Sound(h: Hasher) {
    forall p, salt :: h.verify(p, h.hash(p, salt))
  }

  /** A hasher that also rejects every other password (no collisions). */
  ghost predicate Discriminating(h: Hasher) {
    forall p, q, salt :: p != q ==> !h.verify(q, h.hash(p, salt))
  }

  /** The foreign services the class uses: the hasher and `filter_var(..., FILTER_VALIDATE_EMAIL)`. */
  datatype Services = Services(hasher: Hasher, validEmail: string -> bool)

  const MsgInvalidEmail := "El correo no es válido."
  const MsgShortPassword := "La contraseña debe tener al menos 6 caracteres."
  const MsgEmailTaken := "El correo ya está registrado."
  const MsgBadCredentials := "Credenciales incorrectas."

  /** The shortest password accepted, in bytes (`strlen`). */
  const MinPasswordBytes := 6

  predicate EmailTaken(st: Store, correo: string) {
    exists i :: 0 <= i < |st.rows| && st.rows[i].correo == correo
  }

  /** `registrarUsuario`: the checks run in a fixed order (email syntax, password length, duplicate email), the
      first that fails decides the message and the store is left as it was; otherwise exactly one row is appended
      holding the name, the email and the hash of the password, and every existing row is kept. No session is
      involved. */
  function RegistrarUsuario(st: Store, nombre: string, correo: string, contrasena: string,
                            svc: Services, salt: string, now: int): (r: Result<Store, string>)
    ensures !svc.validEmail(correo) ==> r == Failure(MsgInvalidEmail)
    ensures svc.validEmail(correo) && StrLen(contrasena) < MinPasswordBytes ==> r == Failure(MsgShortPassword)
    ensures svc.validEmail(correo) && StrLen(contrasena) >= MinPasswordBytes && EmailTaken(st, correo) ==>
      r == Failure(MsgEmailTaken)
    ensures r.Success? <==>
      svc.validEmail(correo) && StrLen(contrasena) >= MinPasswordBytes && !EmailTaken(st, correo)
    ensures r.Success? ==>
      && |r.value.rows| == |st.rows| + 1
      && r.value.rows[..|st.rows|] == st.rows
      && r.value.rows[|st.rows|] == User(st.nextId, nombre, correo, svc.hasher.hash(contrasena, salt), now)
  {
    if !svc.validEmail(correo) then Failure(MsgInvalidEmail)
    else if StrLen(contrasena) < MinPasswordBytes then Failure(MsgShortPassword)
    else if FindByEmail(st, correo).Some? then Failure(MsgEmailTaken)
    else Success(Insert(st, nombre, correo, svc.hasher.hash(contrasena, salt), now))
  }

  /** Registration keeps the table valid: ids fresh and positive, emails unique. */
  lemma RegistrarKeepsValid(st: Store, nombre: string, correo: string, contrasena: string,
                            svc: Services, salt: string, now: int)
    requires Valid(st)
    requires RegistrarUsuario(st, nombre, correo, contrasena, svc, salt, now).Success?
    ensures Valid(RegistrarUsuario(st, nombre, correo, contrasena, svc, salt, now).value)
  {
    InsertKeepsValid(st, nombre, correo, svc.hasher.hash(contrasena, salt), now);
  }

  /** `iniciarSesion`: an unknown email and a wrong password fail with the same message; on success
      `usuario_id` becomes the id of the first row with that email and `login_time` the current time,
      and nothing else in the session changes. A failure carries no session: the caller's is untouched. */
  function IniciarSesion(s: Session, st: Store, correo: string, contrasena: string, h: Hasher, now: int)
    : (r: Result<Session, string>)
    ensures r.Failure? ==> r.error == MsgBadCredentials
    ensures !EmailTaken(st, correo) ==> r.Failure?
    ensures r.Success? <==>
      FindByEmail(st, correo).Some? && h.verify(contrasena, FindByEmail(st, correo).value.contrasena)
    ensures r.Success? ==>
      && FindByEmail(st, correo).Some?
      && r.value.usuarioId == Some(FindByEmail(st, correo).value.id)
      && r.value.loginTime == Some(now)
      && r.value.(usuarioId := s.usuarioId, loginTime := s.loginTime) == s
  {
    match FindByEmail(st, correo)
    case None => Failure(MsgBadCredentials)
    case Some(u) =>
      if !h.verify(contrasena, u.contrasena) then Failure(MsgBadCredentials)
      else Success(s.(usuarioId := Some(u.id), loginTime := Some(now)))
  }

  /** `cerrarSesion`: `session_unset` and `session_destroy` leave a session with no attributes. */
  function CerrarSesion(s: Session): (r: Session)
    ensures r.usuarioId.None? && r.loginTime.None?
    ensures r.success.None? && r.error.None?
    ensures r.captchaAnswer.None? && r.formData.None? && r.loginCorreo.None?
  {
    Fresh
  }

  /** `estaLogueado`: `usuario_id` is set and not `empty()`, so an id of 0 counts as logged out. */
  function EstaLogueado(s: Session): (r: bool)
    ensures r <==> s.usuarioId.Some? && s.usuarioId.value != 0
  {
    !EmptyInt(s.usuarioId)
  }

  /** `obtenerUsuarioActual`: nothing when logged out; otherwise the row whose id is `usuario_id`, or nothing
      when no row has it. */
  function ObtenerUsuarioActual(s: Session, st: Store): (r: Option<User>)
    ensures !EstaLogueado(s) ==> r.None?
    ensures EstaLogueado(s) ==>
      (r.None? <==> forall i :: 0 <= i < |st.rows| ==> st.rows[i].id != s.usuarioId.value)
    ensures r.Some? ==> r.value in st.rows && r.value.id == s.usuarioId.value
  {
    if !EstaLogueado(s) then None else FindById(st, s.usuarioId.value)
  }

  /** The page gate and the class agree: `requireAuth` lets a session through exactly when `estaLogueado` holds. */
  lemma RequireAuthMatchesEstaLogueado(s: Session)
    ensures Helpers.RequireAuth(s).redirect.None? <==> EstaLogueado(s)
  {
  }

  /** After `cerrarSesion` nobody is logged in, and logging out twice is the same as once. */
  lemma CerrarSesionLogsOut(s: Session)
    ensures !EstaLogueado(CerrarSesion(s))
    ensures CerrarSesion(CerrarSesion(s)) == CerrarSesion(s)
    ensures Helpers.RequireAuth(CerrarSesion(s)).redirect.Some?
  {
  }

  /** Registering and then logging in with the same email and password succeeds, as the new user. */
  lemma {:induction false} RegisterThenLogin(st: Store, nombre: string, correo: string, contrasena: string,
                                             svc: Services, salt: string, now: int, s: Session, later: int)
    requires Sound(svc.hasher)
    requires RegistrarUsuario(st, nombre, correo, contrasena, svc, salt, now).Success?
    ensures var st' := RegistrarUsuario(st, nombre, correo, contrasena, svc, salt, now).value;
      IniciarSesion(s, st', correo, contrasena, svc.hasher, later)
        == Success(s.(usuarioId := Some(st.nextId), loginTime := Some(later)))
  {
    var u := User(st.nextId, nombre, correo, svc.hasher.hash(contrasena, salt), now);
    var p := (x: User) => x.correo == correo;
    FirstMatchAppend(st.rows, u, p);
    assert FirstMatch(st.rows + [u], p) == Some(|st.rows|);
    assert svc.hasher.verify(contrasena, svc.hasher.hash(contrasena, salt));
  }

  /** With a hasher that has no collisions, any other password is refused after registration. */
  lemma {:induction false} RegisterThenWrongPassword(st: Store, nombre: string, correo: string, contrasena: string,
                                                     svc: Services, salt: string, now: int, s: Session,
                                                     other: string, later: int)
    requires Discriminating(svc.hasher)
    requires other != contrasena
    requires RegistrarUsuario(st, nombre, correo, contrasena, svc, salt, now).Success?
    ensures var st' := RegistrarUsuario(st, nombre, correo, contrasena, svc, salt, now).value;
      IniciarSesion(s, st', correo, other, svc.hasher, later) == Failure(MsgBadCredentials)
  {
    var u := User(st.nextId, nombre, correo, svc.hasher.hash(contrasena, salt), now);
    var p := (x: User) => x.correo == correo;
    FirstMatchAppend(st.rows, u, p);
    assert FirstMatch(st.rows + [u], p) == Some(|st.rows|);
    assert !svc.hasher.verify(other, svc.hasher.hash(contrasena, salt));
  }

  /** A second registration with an email already registered is refused and changes nothing. */
  lemma {:induction false} DuplicateRegistration(st: Store, nombre: string, correo: string, contrasena: string,
                                                 svc: Services, salt: string, now: int,
                                                 nombre2: string, contrasena2: string, salt2: string, now2: int)
    requires RegistrarUsuario(st, nombre, correo, contrasena, svc, salt, now).Success?
    requires StrLen(contrasena2) >= MinPasswordBytes
    ensures var st' := RegistrarUsuario(st, nombre, correo, contrasena, svc, salt, now).value;
      RegistrarUsuario(st', nombre2, correo, contrasena2, svc, salt2, now2) == Failure(MsgEmailTaken)
  {
    var st' := RegistrarUsuario(st, nombre, correo, contrasena, svc, salt, now).value;
    assert st'.rows[|st.rows|].correo == correo;
  }

  /** No user enumeration: for any two stores, a login with an email neither knows and a login with the right
      email but the wrong password give the same answer. */
  lemma NoUserEnumeration(s: Session, st1: Store, unknown: string, p1: string,
                          st2: Store, known: string, p2: string, h: Hasher, now: int)
    requires !EmailTaken(st1, unknown)
    requires FindByEmail(st2, known).Some? && !h.verify(p2, FindByEmail(st2, known).value.contrasena)
    ensures IniciarSesion(s, st1, unknown, p1, h, now) == IniciarSesion(s, st2, known, p2, h, now)
  {
  }

  /** After a successful login in a valid table the session is authenticated and names the user found by email. */
  lemma LoginThenCurrentUser(s: Session, st: Store, correo: string, contrasena: string, h: Hasher, now: int)
    requires Valid(st)
    requires IniciarSesion(s, st, correo, contrasena, h, now).Success?
    ensures var s' := IniciarSesion(s, st, correo, contrasena, h, now).value;
      EstaLogueado(s') && ObtenerUsuarioActual(s', st) == FindByEmail(st, correo)
  {
    var u := FindByEmail(st, correo).value;
    var k :| 0 <= k < |st.rows| && st.rows[k] == u;
    FindInValid(st, k);
  }
}

=== FILE: flows.dfy ===
/** Properties of whole visits that cross pages: registering, then logging in on the next page. */
module Flows {
  import opened Wrappers
  import opened Php
  import opened Sessions
  import opened Users
  import opened Helpers
  import opened Auth
  import RegisterPage
  import LoginPage

  /** The visitor is logged out on a login form whose pending captcha answer is `n`, and `correo` and `contrasena`
      are, as the login handler reads them, the email and password of the stored user `u`. */
  ghost predicate CanLogIn(p: Session, st: Store, correo: Option<string>, contrasena: Option<string>, h: Hasher,
                           n: nat, u: User) {
    && Valid(st)
    && !EstaLogueado(p)
    && p.captchaAnswer == Some(n) && n <= IntMax
    && !LoginPage.Missing(LoginPage.Submission(SanitizeInput(correo.GetOr("")), contrasena.GetOr(""), ""))
    && FindByEmail(st, SanitizeInput(correo.GetOr(""))) == Some(u)
    && h.verify(contrasena.GetOr(""), u.contrasena)
  }

  /** The row an accepted registration adds. */
  function NewUser(st: Store, rf: RegisterPage.RegisterForm, svc: Services, salt: string, now: int): User {
    var sub := RegisterPage.Read(rf);
    User(st.nextId, sub.nombre, sub.correo, svc.hasher.hash(sub.pass1, salt), now)
  }

  /** A visitor whose registration is accepted is sent to the login page, which shows the confirmation; there, the
      same email and password with the new captcha's answer are the credentials of the new row. Together with
      `LoginStep` this is the whole visit: register, then log in as the new user. */
  lemma RegisterThenLoginFlow(s: Session, st: Store, rf: RegisterPage.RegisterForm, svc: Services, salt: string,
                              now: int, a: Operand, b: Operand, a2: Operand, b2: Operand)
    requires Valid(st)
    requires Sound(svc.hasher)
    requires RegisterPage.RegisterRequest(s, st, rf, svc, salt, now, a, b).outcome == Redirect(RegisterPage.LoginTarget)
    ensures var reg := RegisterPage.RegisterRequest(s, st, rf, svc, salt, now, a, b);
      var page := LoginPage.RenderForm(reg.session, a2, b2);
      && page.view.shown.success == Some(RegisterPage.MsgCreated)
      && CanLogIn(page.session, reg.store, rf.correo, rf.contrasena, svc.hasher, a2 + b2,
                  NewUser(st, rf, svc, salt, now))
  {
    var reg := RegisterPage.RegisterRequest(s, st, rf, svc, salt, now, a, b);
    RegistrationStep(s, st, rf, svc, salt, now, a, b);
    PageReady(reg.session, a2, b2);
  }

  /** An accepted registration leaves a valid table whose row for the submitted email is the new user, whose stored
      hash verifies the submitted password, and a visitor who is still logged out and has the confirmation waiting. */
  lemma RegistrationStep(s: Session, st: Store, rf: RegisterPage.RegisterForm, svc: Services, salt: string,
                         now: int, a: Operand, b: Operand)
    requires Valid(st)
    requires Sound(svc.hasher)
    requires RegisterPage.RegisterRequest(s, st, rf, svc, salt, now, a, b).outcome == Redirect(RegisterPage.LoginTarget)
    ensures var reg := RegisterPage.RegisterRequest(s, st, rf, svc, salt, now, a, b);
      var sub := RegisterPage.Read(rf);
      && Valid(reg.store)
      && !EstaLogueado(reg.session)
      && reg.session.success == Some(RegisterPage.MsgCreated)
      && FindByEmail(reg.store, sub.correo) == Some(NewUser(st, rf, svc, salt, now))
      && svc.hasher.verify(sub.pass1, NewUser(st, rf, svc, salt, now).contrasena)
      && !LoginPage.Missing(LoginPage.Submission(sub.correo, sub.pass1, ""))
  {
    var sub := RegisterPage.Read(rf);
    var reg := RegisterPage.RegisterRequest(s, st, rf, svc, salt, now, a, b);
    assert Success(reg.store) == RegistrarUsuario(st, sub.nombre, sub.correo, sub.pass1, svc, salt, now);
    RegistrarKeepsValid(st, sub.nombre, sub.correo, sub.pass1, svc, salt, now);
    FindInValid(reg.store, |st.rows|);
  }

  /** The login page prints a pending confirmation, leaves a logged-out visitor logged out, and leaves the sum of its
      two operands pending. */
  lemma PageReady(s: Session, a2: Operand, b2: Operand)
    requires !EstaLogueado(s)
    ensures var page := LoginPage.RenderForm(s, a2, b2);
      && (s.success == Some(RegisterPage.MsgCreated) ==> page.view.shown.success == Some(RegisterPage.MsgCreated))
      && !EstaLogueado(page.session)
      && page.session.captchaAnswer == Some(a2 + b2)
  {
  }

  /** On a login form whose pending captcha answer is `n`, submitting `n` (as PHP prints it) with the email and
      password of a stored user sends the visitor to the dashboard, authenticated as that user and welcomed by name. */
  lemma LoginStep(p: Session, st: Store, correo: Option<string>, contrasena: Option<string>, h: Hasher, n: nat,
                  u: User, later: int, a3: Operand, b3: Operand)
    requires CanLogIn(p, st, correo, contrasena, h, n, u)
    ensures var login := LoginPage.LoginRequest(p, st, LoginPage.LoginForm(correo, contrasena, Some(Decimal(n))),
                                                h, later, a3, b3);
      && login.outcome.RedirectsTo(LoginPage.Dashboard)
      && EstaLogueado(login.session)
      && login.session.usuarioId == Some(u.id)
      && login.session.success == Some(LoginPage.Welcome(u.nombre))
  {
    var lf := LoginPage.LoginForm(correo, contrasena, Some(Decimal(n)));
    IntvalOfDecimalAlone(n);
    assert Decimal(n) != "";
    LoginPage.LoginWelcomesUser(p, st, lf, h, later);
  }
}

=== FILE: helpers.dfy ===
/** The helper functions every page includes: input sanitizing, redirects, flash messages,
    the local arithmetic captcha and the authentication gate. Each takes the session explicitly
    and returns the session it leaves behind. */
module Helpers {
  import opened Wrappers
  import opened Php
  import opened Sessions
  import Users

  // ---------------------------------------------------------------- sanitizeInput / redirect

  /** `sanitizeInput`: trim, then escape with `htmlspecialchars(..., ENT_QUOTES)`. The result carries no
      markup character, has no whitespace at either end, decodes back to the trimmed input, and is
      `empty()` exactly when the trimmed input is. */
  function SanitizeInput(data: string): (r: string)
    ensures NoMarkup(r)
    ensures |r| == 0 || (!IsTrimSpace(r[0]) && !IsTrimSpace(r[|r| - 1]))
    ensures HtmlDecode(r) == Trim(data)
    ensures EmptyText(Some(r)) <==> EmptyText(Some(Trim(data)))
  {
    EscapeTrimmed(Trim(data));
    HtmlSpecialChars(Trim(data))
  }

  /** What a page request ends with: `redirect()` sends a Location header and exits, otherwise the page renders. */
  datatype Outcome<+V> = Redirect(target: string) | Render(view: V)
  {
    /** The request ended with a redirect to `t`. */
    predicate RedirectsTo(t: string) {
      Redirect? && target == t
    }
  }

  /** The state a request leaves behind and how it ended. */
  datatype Response<+V> = Response(session: Session, store: Users.Store, outcome: Outcome<V>)

  /** A page's rendering step: the session it leaves and what it shows. */
  datatype Rendered<+V> = Rendered(session: Session, view: V)

  // ---------------------------------------------------------------- flash messages

  /** `setSuccess`: the success slot holds `msg`; nothing else in the session changes. */
  function SetSuccess(s: Session, msg: string): (r: Session)
    ensures r.success == Some(msg)
    ensures r.(success := s.success) == s
  {
    s.(success := Some(msg))
  }

  /** `setError`: the error slot holds `msg`; nothing else in the session changes. */
  function SetError(s: Session, msg: string): (r: Session)
    ensures r.error == Some(msg)
    ensures r.(error := s.error) == s
  {
    s.(error := Some(msg))
  }

  /** The flash messages a page printed. */
  datatype Flashes = Flashes(success: Option<string>, error: Option<string>)

  const NoFlashes: Flashes := Flashes(None, None)

  datatype Displayed = Displayed(shown: Flashes, session: Session)

  /** `displayMessage`: prints each flash slot that is not `empty()` and removes exactly the slots it printed,
      so no non-empty flash is left behind; the rest of the session is untouched. */
  function DisplayMessage(s: Session): (r: Displayed)
    ensures r.shown.success.Some? <==> !EmptyText(s.success)
    ensures r.shown.success.Some? ==> r.shown.success == s.success && r.session.success.None?
    ensures r.shown.success.None? ==> r.session.success == s.success
    ensures r.shown.error.Some? <==> !EmptyText(s.error)
    ensures r.shown.error.Some? ==> r.shown.error == s.error && r.session.error.None?
    ensures r.shown.error.None? ==> r.session.error == s.error
    ensures EmptyText(r.session.success) && EmptyText(r.session.error)
    ensures r.session.(success := s.success, error := s.error) == s
  {
    var success := if EmptyText(s.success) then None else s.success;
    var error := if EmptyText(s.error) then None else s.error;
    var s1 := if success.Some? then s.(success := None) else s;
    var s2 := if error.Some? then s1.(error := None) else s1;
    Displayed(Flashes(success, error), s2)
  }

  /** Flashes are read once: a second `displayMessage` prints nothing and changes nothing. */
  lemma DisplayMessageReadOnce(s: Session)
    ensures var once := DisplayMessage(s);
      DisplayMessage(once.session) == Displayed(NoFlashes, once.session)
  {
  }

  /** A flash set by `setError` (or `setSuccess`) is the one the next `displayMessage` prints, and the
      other slot is printed as it would have been without it. */
  lemma SetThenDisplay(s: Session, msg: string)
    requires !EmptyText(Some(msg))
    ensures DisplayMessage(SetError(s, msg)).shown == Flashes(DisplayMessage(s).shown.success, Some(msg))
    ensures DisplayMessage(SetSuccess(s, msg)).shown == Flashes(Some(msg), DisplayMessage(s).shown.error)
  {
  }

  // ---------------------------------------------------------------- math captcha

  /** A value `rand(1, 9)` can return. */
  type Operand = x: int | 1 <= x <= 9 witness 1

  datatype Challenge = Challenge(question: string, session: Session)

  /** `generateMathCaptcha` with the two `rand(1, 9)` draws passed in: stores the sum as the pending answer,
      replacing any earlier one, and asks "a + b = ?". */
  function GenerateMathCaptcha(s: Session, a: Operand, b: Operand): (r: Challenge)
    ensures r.session.captchaAnswer == Some(a + b)
    ensures CaptchaInRange(r.session)
    ensures r.session.(captchaAnswer := s.captchaAnswer) == s
    ensures r.question == Decimal(a) + " + " + Decimal(b) + " = ?"
  {
    Challenge(Decimal(a) + " + " + Decimal(b) + " = ?", s.(captchaAnswer := Some(a + b)))
  }

  /** The question starts with the first operand as `intval` reads it, so a visitor who types the question back
      (or just its first number) is rejected: every second operand is at least 1. */
  lemma CaptchaRejectsFirstOperand(s: Session, a: Operand, b: Operand)
    ensures var g := GenerateMathCaptcha(s, a, b);
      && Intval(g.question) == a
      && !VerifyMathCaptcha(g.session, g.question).ok
      && !VerifyMathCaptcha(g.session, Decimal(a)).ok
  {
    QuestionReadsFirstOperand(a, b);
    IntvalOfDecimalAlone(a);
  }

  /** `intval` of the question text is its first operand. */
  lemma QuestionReadsFirstOperand(a: Operand, b: Operand)
    ensures Intval(Decimal(a) + " + " + Decimal(b) + " = ?") == a
  {
    var tail := " + " + Decimal(b) + " = ?";
    assert Decimal(a) + " + " + Decimal(b) + " = ?" == Decimal(a) + tail;
    IntvalOfDecimal(a, tail);
  }

  datatype Check = Check(ok: bool, session: Session)

  /** `verifyMathCaptcha`: false when no answer is pending; otherwise true exactly when `intval(input)`
      equals the pending answer, which is removed whatever the result. Nothing else changes. */
  function VerifyMathCaptcha(s: Session, input: string): (r: Check)
    ensures r.ok <==> s.captchaAnswer.Some? && Intval(input) == s.captchaAnswer.value
    ensures r.session.captchaAnswer.None?
    ensures r.session.(captchaAnswer := s.captchaAnswer) == s
  {
    match s.captchaAnswer
    case None => Check(false, s)
    case Some(answer) => Check(Intval(input) == answer, s.(captchaAnswer := None))
  }

  /** Single use: once checked, a challenge cannot be checked again, whatever is answered. */
  lemma CaptchaSingleUse(s: Session, first: string, second: string)
    ensures !VerifyMathCaptcha(VerifyMathCaptcha(s, first).session, second).ok
  {
  }

  /** A pending answer, typed as digits, is accepted, and checking it consumes it. */
  lemma CaptchaAcceptsPending(s: Session, n: nat)
    requires s.captchaAnswer == Some(n) && n <= IntMax
    ensures VerifyMathCaptcha(s, Decimal(n)) == Check(true, s.(captchaAnswer := None))
  {
    IntvalOfDecimalAlone(n);
  }

  /** The sum of the question's two numbers, written as PHP prints it, is accepted. */
  lemma CaptchaAcceptsTheSum(s: Session, a: Operand, b: Operand)
    ensures var c := GenerateMathCaptcha(s, a, b);
      VerifyMathCaptcha(c.session, Decimal(a + b)) == Check(true, c.session.(captchaAnswer := None))
  {
    CaptchaAcceptsPending(GenerateMathCaptcha(s, a, b).session, a + b);
  }

  /** An answer with no leading integer reads as 0, which no generated challenge has as its sum. */
  lemma CaptchaRejectsNonNumbers(s: Session, input: string)
    requires CaptchaInRange(s)
    requires !StartsWithInteger(input)
    ensures !VerifyMathCaptcha(s, input).ok
  {
  }

  /** "3 + 5 = ?" accepts "8" once and then nothing. */
  lemma CaptchaScenario(s: Session)
    ensures GenerateMathCaptcha(s, 3, 5).question == "3 + 5 = ?"
    ensures var c := GenerateMathCaptcha(s, 3, 5).session;
      VerifyMathCaptcha(c, "8").ok && !VerifyMathCaptcha(VerifyMathCaptcha(c, "8").session, "8").ok
  {
    assert Decimal(3) + " + " + Decimal(5) + " = ?" == "3 + 5 = ?" by {
      assert Decimal(3) == [DigitChar(3)] == "3";
      assert Decimal(5) == [DigitChar(5)] == "5";
    }
    var c := GenerateMathCaptcha(s, 3, 5).session;
    assert Decimal(8) == "8" by {
      assert Decimal(8) == [DigitChar(8)];
    }
    CaptchaAcceptsPending(c, 8);
    CaptchaSingleUse(c, "8", "8");
  }

  // ---------------------------------------------------------------- requireAuth

  const MsgLoginRequired := "Debes iniciar sesión para acceder a esta página."
  const LoginPageFromPages := "../pages/login.php"

  datatype Gate = Gate(session: Session, redirect: Option<string>)

  /** `requireAuth`: a session whose `usuario_id` is `empty()` gets the error flash and is sent to the login
      page; any other session passes through unchanged. */
  function RequireAuth(s: Session): (r: Gate)
    ensures r.redirect.Some? <==> EmptyInt(s.usuarioId)
    ensures r.redirect.Some? ==> r.redirect.value == LoginPageFromPages && r.session == SetError(s, MsgLoginRequired)
    ensures r.redirect.None? ==> r.session == s
  {
    if EmptyInt(s.usuarioId) then Gate(SetError(s, MsgLoginRequired), Some(LoginPageFromPages))
    else Gate(s, None)
  }
}

=== FILE: login.dfy ===
/** The login page: the logged-in redirect, the POST handler and the rendering prologue that reads the saved
    email once, prints the flash messages and draws a new captcha. */
module LoginPage {
  import opened Wrappers
  import opened Php
  import opened Sessions
  import opened Users
  import opened Helpers
  import opened Auth

  /** The POST fields; `None` for a field the request did not send. */
  datatype LoginForm = LoginForm(correo: Option<string>, contrasena: Option<string>, mathCaptcha: Option<string>)

  /** The fields as the handler works with them: absent ones read as "", the email sanitized, the password and
      the captcha answer verbatim. */
  datatype Submission = Submission(correo: string, contrasena: string, captcha: string)

  function Read(f: LoginForm): Submission {
    Submission(SanitizeInput(f.correo.GetOr("")), f.contrasena.GetOr(""), f.mathCaptcha.GetOr(""))
  }

  predicate Missing(sub: Submission) {
    EmptyText(Some(sub.correo)) || EmptyText(Some(sub.contrasena))
  }

  const MsgRequired := "Todos los campos son obligatorios."
  const MsgCaptcha := "Completa correctamente la verificación de seguridad."
  const Dashboard := "dashboard.php"

  const WelcomePrefix := "👋 ¡Bienvenido de nuevo, "

  /** The welcome flash: the greeting, the user's name, then '!'. */
  function Welcome(nombre: string): (m: string)
    ensures |m| == |WelcomePrefix| + |nombre| + 1
    ensures m[..|WelcomePrefix|] == WelcomePrefix
    ensures m[|WelcomePrefix|..|m| - 1] == nombre
    ensures m[|m| - 1] == '!'
  {
    WelcomePrefix + nombre + "!"
  }

  /** The catch block: the error flash and the email to repopulate (never the password). */
  function Failed(s: Session, sub: Submission, msg: string): Session {
    SetError(s, msg).(loginCorreo := Some(sub.correo))
  }

  /** The handler up to the end of the POST block. A logged-in visitor is sent to the dashboard first. A missing
      email or password fails before the captcha is looked at, a failed captcha before any credential lookup; an
      unknown email and a wrong password fail alike. Failures keep the visitor logged out and save only the email.
      A submission that passes every check succeeds, and only such a one: the session is authenticated as the
      first user with that email, the welcome flash names the user and the visitor goes to the dashboard. The store
      is never changed. */
  function HandlePost(s: Session, st: Store, f: LoginForm, h: Hasher, now: int): (r: Response<()>)
    ensures r.store == st
    ensures EstaLogueado(s) ==> r == Response(s, st, Redirect(Dashboard))
    ensures var sub := Read(f);
      !EstaLogueado(s) && Missing(sub) ==> r == Response(Failed(s, sub, MsgRequired), st, Render(()))
    ensures var sub := Read(f);
      !EstaLogueado(s) && !Missing(sub) && sub.captcha == "" ==>
        r == Response(Failed(s, sub, MsgCaptcha), st, Render(()))
    ensures var sub := Read(f);
      !EstaLogueado(s) && !Missing(sub) && sub.captcha != "" && s.captchaAnswer != Some(Intval(sub.captcha)) ==>
        r == Response(Failed(s.(captchaAnswer := None), sub, MsgCaptcha), st, Render(()))
    ensures var sub := Read(f);
      var user := FindByEmail(st, sub.correo);
      !EstaLogueado(s) && !Missing(sub) && sub.captcha != "" && s.captchaAnswer == Some(Intval(sub.captcha))
        && (user.None? || !h.verify(sub.contrasena, user.value.contrasena)) ==>
        r == Response(Failed(s.(captchaAnswer := None), sub, MsgBadCredentials), st, Render(()))
    ensures var sub := Read(f);
      var user := FindByEmail(st, sub.correo);
      r.outcome.Redirect? <==>
        || EstaLogueado(s)
        || (&& !Missing(sub) && sub.captcha != "" && s.captchaAnswer == Some(Intval(sub.captcha))
            && user.Some? && h.verify(sub.contrasena, user.value.contrasena))
    ensures r.outcome.Render? ==> !EstaLogueado(r.session) && r.session.loginCorreo == Some(Read(f).correo)
    ensures var sub := Read(f);
      var user := FindByEmail(st, sub.correo);
      !EstaLogueado(s) && r.outcome.Redirect? ==>
        && r.outcome.target == Dashboard
        && user.Some? && h.verify(sub.contrasena, user.value.contrasena)
        && r.session.usuarioId == Some(user.value.id) && r.session.loginTime == Some(now)
        && r.session.captchaAnswer.None?
        && r.session.success.Some? && r.session.success.value in WelcomeTexts(st)
        && r.session.(usuarioId := s.usuarioId, loginTime := s.loginTime, captchaAnswer := s.captchaAnswer,
                      success := s.success) == s
  {
    if EstaLogueado(s) then Response(s, st, Redirect(Dashboard))
    else
      var sub := Read(f);
      if Missing(sub) then Response(Failed(s, sub, MsgRequired), st, Render(()))
      else if sub.captcha == "" then Response(Failed(s, sub, MsgCaptcha), st, Render(()))
      else
        var check := VerifyMathCaptcha(s, sub.captcha);
        if !check.ok then Response(Failed(check.session, sub, MsgCaptcha), st, Render(()))
        else
          match IniciarSesion(check.session, st, sub.correo, sub.contrasena, h, now)
          case Failure(msg) => Response(Failed(check.session, sub, msg), st, Render(()))
          case Success(s') =>
            var usuario := ObtenerUsuarioActual(s', st);
            var nombre := if usuario.Some? then usuario.value.nombre else "";
            assert Welcome(nombre) in WelcomeTexts(st) by {
              if usuario.Some? {
                var i :| 0 <= i < |st.rows| && st.rows[i] == usuario.value;
              }
            }
            Response(SetSuccess(s', Welcome(nombre)), st, Redirect(Dashboard))
  }

  /** In a valid table a successful login leaves the session authenticated and welcomes the user by name. */
  lemma LoginWelcomesUser(s: Session, st: Store, f: LoginForm, h: Hasher, now: int)
    requires Valid(st)
    requires !EstaLogueado(s)
    requires HandlePost(s, st, f, h, now).outcome.Redirect?
    ensures var r := HandlePost(s, st, f, h, now);
      && EstaLogueado(r.session)
      && r.session.success == Some(Welcome(FindByEmail(st, Read(f).correo).value.nombre))
  {
    var sub := Read(f);
    var check := VerifyMathCaptcha(s, sub.captcha);
    LoginThenCurrentUser(check.session, st, sub.correo, sub.contrasena, h, now);
  }

  /** What the form shows: the printed flashes, the email to repopulate and the captcha question. */
  datatype LoginView = LoginView(shown: Flashes, correo: string, question: string)

  /** The rendering prologue: `login_correo` is read once and removed, `displayMessage` prints and clears the
      flashes, and a fresh captcha replaces any pending one. Login state is untouched. */
  function RenderForm(s: Session, a: Operand, b: Operand): (r: Rendered<LoginView>)
    ensures r.view.correo == s.loginCorreo.GetOr("")
    ensures r.session.loginCorreo.None?
    ensures r.view.shown == DisplayMessage(s).shown
    ensures EmptyText(r.session.success) && EmptyText(r.session.error)
    ensures r.session.captchaAnswer == Some(a + b) && CaptchaInRange(r.session)
    ensures r.session.usuarioId == s.usuarioId && r.session.loginTime == s.loginTime
    ensures r.session.formData == s.formData
  {
    var saved := s.loginCorreo.GetOr("");
    var shown := DisplayMessage(s.(loginCorreo := None));
    var captcha := GenerateMathCaptcha(shown.session, a, b);
    Rendered(captcha.session, LoginView(shown.shown, saved, captcha.question))
  }

  /** A whole POST request to the page: the handler, then, unless it redirected, the rendering prologue with the
      two captcha operands drawn for the new form. */
  function LoginRequest(s: Session, st: Store, f: LoginForm, h: Hasher, now: int, a: Operand, b: Operand)
    : (r: Response<LoginView>)
    ensures r.store == st
    ensures r.outcome.Redirect? ==> r.outcome.target == Dashboard
    ensures var p := HandlePost(s, st, f, h, now);
      p.outcome.Redirect? ==> r == Response(p.session, st, Redirect(p.outcome.target))
    ensures r.outcome.Render? ==>
      && !EstaLogueado(r.session)
      && r.outcome.view.correo == Read(f).correo
      && r.outcome.view.shown.error == HandlePost(s, st, f, h, now).session.error
      && r.session.loginCorreo.None? && r.session.error.None?
      && r.session.captchaAnswer == Some(a + b)
  {
    var p := HandlePost(s, st, f, h, now);
    match p.outcome
    case Redirect(target) => Response(p.session, st, Redirect(target))
    case Render(_) =>
      var page := RenderForm(p.session, a, b);
      Response(page.session, st, Render(page.view))
  }

  /** No user enumeration at the page: with the same session and the same submission, a store that does not know
      the email and a store where the password is wrong produce the same session and the same page. */
  lemma NoUserEnumeration(s: Session, f: LoginForm, h: Hasher, now: int, a: Operand, b: Operand,
                          unknown: Store, known: Store)
    requires !EmailTaken(unknown, Read(f).correo)
    requires FindByEmail(known, Read(f).correo).Some?
    requires !h.verify(Read(f).contrasena, FindByEmail(known, Read(f).correo).value.contrasena)
    ensures LoginRequest(s, unknown, f, h, now, a, b).session == LoginRequest(s, known, f, h, now, a, b).session
    ensures LoginRequest(s, unknown, f, h, now, a, b).outcome == LoginRequest(s, known, f, h, now, a, b).outcome
  {
  }

  /** The welcome flashes a store allows: one per stored name, and the one with no name that a user whose id
      reads as logged out gets. */
  function WelcomeTexts(st: Store): set<string> {
    {Welcome("")} + set i | 0 <= i < |st.rows| :: Welcome(st.rows[i].nombre)
  }

  /** No password is ever kept: at the end of a request the session holds no text it did not hold before, apart
      from a welcome flash. */
  lemma LoginKeepsNoSecrets(s: Session, st: Store, f: LoginForm, h: Hasher, now: int, a: Operand, b: Operand)
    ensures Strings(LoginRequest(s, st, f, h, now, a, b).session) <= Strings(s) + WelcomeTexts(st)
  {
    var p := HandlePost(s, st, f, h, now);
    if p.outcome.Render? {
      RenderedFailureKeepsNoSecrets(s, st, f, h, now, a, b);
    } else if !EstaLogueado(s) {
      WelcomeKeepsNoSecrets(s, st, f, h, now);
    }
  }

  lemma RenderedFailureKeepsNoSecrets(s: Session, st: Store, f: LoginForm, h: Hasher, now: int,
                                      a: Operand, b: Operand)
    requires HandlePost(s, st, f, h, now).outcome.Render?
    ensures Strings(LoginRequest(s, st, f, h, now, a, b).session) <= Strings(s)
  {
    var r := LoginRequest(s, st, f, h, now, a, b);
    assert r.session.success.Some? ==> r.session.success == s.success;
    assert r.session.formData == s.formData;
  }

  lemma WelcomeKeepsNoSecrets(s: Session, st: Store, f: LoginForm, h: Hasher, now: int)
    requires !EstaLogueado(s)
    requires HandlePost(s, st, f, h, now).outcome.Redirect?
    ensures Strings(HandlePost(s, st, f, h, now).session) <= Strings(s) + WelcomeTexts(st)
  {
  }
}

=== FILE: logout.dfy ===
/** The logout script: end the session, start a new one holding only the farewell flash, go to the login page. */
module Logout {
  import opened Wrappers
  import opened Sessions
  import opened Helpers
  import opened Auth

  const MsgLoggedOut := " ¡Sesión cerrada correctamente! Esperamos verte pronto."
  const LoginPage := "pages/login.php"

  /** The session the script leaves and where it redirects. */
  datatype Ended = Ended(session: Session, target: string)

  /** `cerrarSesion`, a new session, the farewell flash and the redirect: whatever the session held before (login,
      pending captcha, error flash, saved form data) is gone, and only the farewell flash remains. */
  function LogoutRequest(s: Session): (r: Ended)
    ensures r.target == LoginPage
    ensures r.session.success == Some(MsgLoggedOut)
    ensures r.session.usuarioId.None? && r.session.loginTime.None?
    ensures r.session.error.None? && r.session.captchaAnswer.None?
    ensures r.session.formData.None? && r.session.loginCorreo.None?
  {
    Ended(SetSuccess(CerrarSesion(s), MsgLoggedOut), LoginPage)
  }

  /** Logout does not depend on the state it starts from: an authenticated and an anonymous visitor end up in the
      same place, and logging out twice is the same as once. */
  lemma LogoutIdempotent(s1: Session, s2: Session)
    ensures LogoutRequest(s1) == LogoutRequest(s2)
    ensures LogoutRequest(LogoutRequest(s1).session) == LogoutRequest(s1)
  {
  }

  /** After logout nobody is logged in, protected pages redirect, the session holds no text but the farewell,
      and the next page shows the farewell exactly once. */
  lemma LogoutEndsSession(s: Session)
    ensures var s' := LogoutRequest(s).session;
      && !EstaLogueado(s')
      && RequireAuth(s').redirect.Some?
      && Strings(s') == {MsgLoggedOut}
      && DisplayMessage(s').shown == Flashes(Some(MsgLoggedOut), None)
  {
  }
}

=== FILE: php.dfy ===
/** The parts of PHP's runtime the login system relies on: `empty()`, `intval()`,
    `trim()`, `htmlspecialchars($s, ENT_QUOTES)` and `strlen()`.
    Strings are sequences of Unicode scalar values; PHP's byte strings are their UTF-8 encoding. */
module Php {
  import opened Wrappers

  /** PHP_INT_MAX and PHP_INT_MIN on a 64-bit build. */
  const IntMax: int := 0x7FFF_FFFF_FFFF_FFFF
  const IntMin: int := -0x8000_0000_0000_0000

  // ---------------------------------------------------------------- empty()

  /** `empty($v)` for a value that is null or a string: `null`, `""` and `"0"` are empty. */
  predicate EmptyText(v: Option<string>) {
    v.None? || v.value == "" || v.value == "0"
  }

  /** `empty($v)` for a value that is null or an integer: `null` and `0` are empty. */
  predicate EmptyInt(v: Option<int>) {
    v.None? || v.value == 0
  }

  // ---------------------------------------------------------------- decimal digits

  predicate IsDigit(c: char) {
    '0' <= c <= '9'
  }

  predicate AllDigits(d: string) {
    forall i :: 0 <= i < |d| ==> IsDigit(d[i])
  }

  function DigitValue(c: char): (v: nat)
    requires IsDigit(c)
    ensures v < 10
  {
    c as int - '0' as int
  }

  function DigitChar(v: nat): (c: char)
    requires v < 10
    ensures IsDigit(c) && DigitValue(c) == v
  {
    ('0' as int + v) as char
  }

  /** The value of a string of decimal digits, most significant first. */
  function DigitsValue(d: string): nat
    requires AllDigits(d)
  {
    if |d| == 0 then 0 else DigitsValue(d[..|d| - 1]) * 10 + DigitValue(d[|d| - 1])
  }

  /** PHP's rendering of a non-negative integer in a string ("$a"): no sign, no leading zero. */
  function Decimal(n: nat): (r: string)
    ensures |r| > 0 && AllDigits(r)
    ensures r[0] == '0' ==> n == 0
  {
    if n < 10 then [DigitChar(n)] else Decimal(n / 10) + [DigitChar(n % 10)]
  }

  /** Reading back what `Decimal` wrote gives the number: the two are inverse. */
  lemma {:induction false} DigitsValueOfDecimal(n: nat)
    ensures DigitsValue(Decimal(n)) == n
  {
    if n >= 10 {
      var d := Decimal(n / 10);
      var c := DigitChar(n % 10);
      assert (d + [c])[..|d + [c]| - 1] == d;
      DigitsValueOfDecimal(n / 10);
    }
  }

  // ---------------------------------------------------------------- intval()

  /** The whitespace PHP's numeric-string reader skips before a number: space, \t, \n, \r, \v, \f. */
  predicate IsNumericSpace(c: char) {
    c == ' ' || c == '\t' || c == '\n' || c == '\r' || c == '\U{000B}' || c == '\U{000C}'
  }

  /** `s` without its leading numeric whitespace. */
  function SkipSpace(s: string): (r: string)
    ensures |r| <= |s| && r == s[|s| - |r|..]
    ensures forall i :: 0 <= i < |s| - |r| ==> IsNumericSpace(s[i])
    ensures |r| > 0 ==> !IsNumericSpace(r[0])
  {
    if |s| > 0 && IsNumericSpace(s[0]) then SkipSpace(s[1..]) else s
  }

  /** The longest prefix of `s` made of decimal digits. */
  function LeadingDigits(s: string): (r: string)
    ensures |r| <= |s| && r == s[..|r|]
    ensures AllDigits(r)
    ensures |r| < |s| ==> !IsDigit(s[|r|])
  {
    if |s| > 0 && IsDigit(s[0]) then [s[0]] + LeadingDigits(s[1..]) else []
  }

  /** PHP's conversion of an out-of-range integer string: saturate at the 64-bit bounds. */
  function Saturate(v: int): (r: int)
    ensures IntMin <= r <= IntMax
    ensures IntMin <= v <= IntMax ==> r == v
    ensures v > IntMax ==> r == IntMax
    ensures v < IntMin ==> r == IntMin
  {
    if v > IntMax then IntMax else if v < IntMin then IntMin else v
  }

  /** True when `s`, after leading whitespace, starts with a digit, or with a sign followed by a digit. */
  predicate StartsWithInteger(s: string) {
    var t := SkipSpace(s);
    (|t| > 0 && IsDigit(t[0])) || (|t| > 1 && (t[0] == '-' || t[0] == '+') && IsDigit(t[1]))
  }

  /** `intval($s)` for a string: the optionally signed decimal integer at the head of `s`
      (after leading whitespace), saturated to 64 bits; 0 when there is none. */
  function Intval(s: string): (r: int)
    ensures IntMin <= r <= IntMax
    ensures !StartsWithInteger(s) ==> r == 0
  {
    var t := SkipSpace(s);
    if |t| > 0 && (t[0] == '-' || t[0] == '+') then
      var m: int := DigitsValue(LeadingDigits(t[1..]));
      Saturate(if t[0] == '-' then -m else m)
    else
      Saturate(DigitsValue(LeadingDigits(t)))
  }

  lemma {:induction false} LeadingDigitsOfDigits(d: string, rest: string)
    requires AllDigits(d)
    requires |rest| == 0 || !IsDigit(rest[0])
    ensures LeadingDigits(d + rest) == d
  {
    if |d| > 0 {
      assert (d + rest)[1..] == d[1..] + rest;
      LeadingDigitsOfDigits(d[1..], rest);
    } else {
      assert d + rest == rest;
    }
  }

  /** Text that starts with a digit is read unsigned: the saturated value of its leading digits. */
  lemma IntvalUnsigned(s: string)
    requires |s| > 0 && IsDigit(s[0])
    ensures Intval(s) == Saturate(DigitsValue(LeadingDigits(s)))
  {
    var c := s[0];
    assert !IsNumericSpace(c) && c != '-' && c != '+';
    assert SkipSpace(s) == s;
  }

  /** A run of digits followed by a non-digit reads as the saturated value of the digits. */
  lemma IntvalOfDigits(d: string, rest: string)
    requires |d| > 0 && AllDigits(d)
    requires |rest| == 0 || !IsDigit(rest[0])
    ensures Intval(d + rest) == Saturate(DigitsValue(d))
  {
    assert (d + rest)[0] == d[0];
    IntvalUnsigned(d + rest);
    LeadingDigitsOfDigits(d, rest);
  }

  /** `intval` reads back any in-range number PHP printed, whatever non-digit text follows it. */
  lemma IntvalOfDecimal(n: nat, rest: string)
    requires n <= IntMax
    requires |rest| == 0 || !IsDigit(rest[0])
    ensures Intval(Decimal(n) + rest) == n
  {
    IntvalOfDigits(Decimal(n), rest);
    DigitsValueOfDecimal(n);
  }

  /** `intval` reads back any in-range number PHP printed. */
  lemma IntvalOfDecimalAlone(n: nat)
    requires n <= IntMax
    ensures Intval(Decimal(n)) == n
  {
    IntvalOfDecimal(n, "");
    assert Decimal(n) + "" == Decimal(n);
  }

  /** A minus sign before a printed number negates it. */
  lemma IntvalOfNegative(n: nat)
    requires n <= IntMax
    ensures Intval("-" + Decimal(n)) == -(n as int)
  {
    var d := Decimal(n);
    var s := "-" + d;
    assert SkipSpace(s) == s;
    assert s[1..] == d + "";
    LeadingDigitsOfDigits(d, "");
    assert d + "" == d;
    DigitsValueOfDecimal(n);
    assert LeadingDigits(s[1..]) == d;
    assert Intval(s) == Saturate(-(DigitsValue(d) as int));
  }

  /** `intval` ignores whitespace before the number. */
  lemma {:induction false} IntvalSkipsSpace(c: char, s: string)
    requires IsNumericSpace(c)
    ensures Intval([c] + s) == Intval(s)
  {
    assert ([c] + s)[1..] == s;
  }

  // ---------------------------------------------------------------- trim()

  /** The characters PHP's `trim()` strips by default: space, \t, \n, \r, \0 and \x0B. */
  predicate IsTrimSpace(c: char) {
    c == ' ' || c == '\t' || c == '\n' || c == '\r' || c == '\0' || c == '\U{000B}'
  }

  /** The index of the first character at or after `i` that is not trim-whitespace (or `|s|`). */
  function TrimStart(s: string, i: nat): (k: nat)
    requires i <= |s|
    ensures i <= k <= |s|
    ensures forall m :: i <= m < k ==> IsTrimSpace(s[m])
    ensures k < |s| ==> !IsTrimSpace(s[k])
    decreases |s| - i
  {
    if i < |s| && IsTrimSpace(s[i]) then TrimStart(s, i + 1) else i
  }

  /** One past the last character before `j`, and not before `lo`, that is not trim-whitespace (or `lo`). */
  function TrimEnd(s: string, lo: nat, j: nat): (k: nat)
    requires lo <= j <= |s|
    ensures lo <= k <= j
    ensures forall m :: k <= m < j ==> IsTrimSpace(s[m])
    ensures k > lo ==> !IsTrimSpace(s[k - 1])
  {
    if j > lo && IsTrimSpace(s[j - 1]) then TrimEnd(s, lo, j - 1) else j
  }

  /** `r` is what is left of `s` once the trim-whitespace before position `i` and after `r` is cut. */
  ghost predicate TrimmedAt(s: string, i: int, r: string) {
    && 0 <= i <= |s| - |r|
    && s[i..i + |r|] == r
    && (forall m :: 0 <= m < i ==> IsTrimSpace(s[m]))
    && (forall m :: i + |r| <= m < |s| ==> IsTrimSpace(s[m]))
  }

  /** `trim($s)`: the slice of `s` left when trim-whitespace is stripped from both ends. */
  function Trim(s: string): (r: string)
    ensures |r| == 0 || (!IsTrimSpace(r[0]) && !IsTrimSpace(r[|r| - 1]))
    ensures exists i :: TrimmedAt(s, i, r)
  {
    var i := TrimStart(s, 0);
    var j := TrimEnd(s, i, |s|);
    assert TrimmedAt(s, i, s[i..j]);
    s[i..j]
  }

  /** Trimming twice is trimming once. */
  lemma TrimIdempotent(s: string)
    ensures Trim(Trim(s)) == Trim(s)
  {
    var t := Trim(s);
    if |t| > 0 {
      assert TrimStart(t, 0) == 0;
      assert TrimEnd(t, 0, |t|) == |t|;
      assert t[0..|t|] == t;
    }
  }

  // ---------------------------------------------------------------- htmlspecialchars()

  /** No character that could open a tag or close an attribute value. */
  predicate NoMarkup(t: string) {
    forall i :: 0 <= i < |t| ==> t[i] != '<' && t[i] != '>' && t[i] != '"' && t[i] != '\''
  }

  /** The replacement `htmlspecialchars` with ENT_QUOTES makes for one character. */
  function EscapeChar(c: char): (r: string)
    ensures |r| > 0 && NoMarkup(r)
    ensures r == [c] || (r[0] == '&' && r[|r| - 1] == ';')
  {
    if c == '&' then "&amp;"
    else if c == '"' then "&quot;"
    else if c == '\'' then "&#039;"
    else if c == '<' then "&lt;"
    else if c == '>' then "&gt;"
    else [c]
  }

  /** `htmlspecialchars($s, ENT_QUOTES, 'UTF-8')` on valid UTF-8 text (double encoding on). */
  function HtmlSpecialChars(s: string): (r: string)
    ensures NoMarkup(r)
    ensures |r| >= |s|
  {
    if |s| == 0 then "" else EscapeChar(s[0]) + HtmlSpecialChars(s[1..])
  }

  /** Independent inverse of `HtmlSpecialChars`: replaces the five entities it produces by their characters
      and keeps every other character. */
  function HtmlDecode(t: string): string
    decreases |t|
  {
    if |t| == 0 then ""
    else if t[0] != '&' then [t[0]] + HtmlDecode(t[1..])
    else if |t| >= 5 && t[1] == 'a' && t[2] == 'm' && t[3] == 'p' && t[4] == ';' then "&" + HtmlDecode(t[5..])
    else if |t| >= 6 && t[1] == 'q' && t[2] == 'u' && t[3] == 'o' && t[4] == 't' && t[5] == ';' then "\"" + HtmlDecode(t[6..])
    else if |t| >= 6 && t[1] == '#' && t[2] == '0' && t[3] == '3' && t[4] == '9' && t[5] == ';' then "'" + HtmlDecode(t[6..])
    else if |t| >= 4 && t[1] == 'l' && t[2] == 't' && t[3] == ';' then "<" + HtmlDecode(t[4..])
    else if |t| >= 4 && t[1] == 'g' && t[2] == 't' && t[3] == ';' then ">" + HtmlDecode(t[4..])
    else [t[0]] + HtmlDecode(t[1..])
  }

  lemma DecodeAfterEscapeChar(c: char, rest: string)
    ensures HtmlDecode(EscapeChar(c) + rest) == [c] + HtmlDecode(rest)
  {
    var e := EscapeChar(c);
    var t := e + rest;
    if c == '&' {
      assert t[0] == '&' && t[1] == 'a' && t[2] == 'm' && t[3] == 'p' && t[4] == ';';
      assert t[5..] == rest;
    } else if c == '"' {
      assert t[0] == '&' && t[1] == 'q' && t[2] == 'u' && t[3] == 'o' && t[4] == 't' && t[5] == ';';
      assert t[6..] == rest;
    } else if c == '\'' {
      assert t[0] == '&' && t[1] == '#' && t[2] == '0' && t[3] == '3' && t[4] == '9' && t[5] == ';';
      assert t[6..] == rest;
    } else if c == '<' {
      assert t[0] == '&' && t[1] == 'l' && t[2] == 't' && t[3] == ';';
      assert t[4..] == rest;
    } else if c == '>' {
      assert t[0] == '&' && t[1] == 'g' && t[2] == 't' && t[3] == ';';
      assert t[4..] == rest;
    } else {
      assert t[0] == c && t[1..] == rest;
    }
  }

  /** Escaping loses nothing: decoding the escaped text gives the original back. */
  lemma {:induction false} HtmlDecodeInverts(s: string)
    ensures HtmlDecode(HtmlSpecialChars(s)) == s
  {
    if |s| > 0 {
      DecodeAfterEscapeChar(s[0], HtmlSpecialChars(s[1..]));
      HtmlDecodeInverts(s[1..]);
      assert [s[0]] + s[1..] == s;
    }
  }

  /** Escaping distributes over concatenation. */
  lemma {:induction false} HtmlSpecialCharsAppend(a: string, b: string)
    ensures HtmlSpecialChars(a + b) == HtmlSpecialChars(a) + HtmlSpecialChars(b)
  {
    if |a| > 0 {
      assert (a + b)[0] == a[0] && (a + b)[1..] == a[1..] + b;
      HtmlSpecialCharsAppend(a[1..], b);
    } else {
      assert a + b == b;
    }
  }

  /** The escaped text starts with the escape of the first character. */
  lemma HtmlSpecialCharsFirst(t: string)
    requires |t| > 0
    ensures var r := HtmlSpecialChars(t); |r| > 0 && r[0] == EscapeChar(t[0])[0]
  {
    assert HtmlSpecialChars(t) == EscapeChar(t[0]) + HtmlSpecialChars(t[1..]);
  }

  /** The escaped text ends with the escape of the last character. */
  lemma HtmlSpecialCharsLast(t: string)
    requires |t| > 0
    ensures var r := HtmlSpecialChars(t); var e := EscapeChar(t[|t| - 1]);
      |r| > 0 && r[|r| - 1] == e[|e| - 1]
  {
    var n := |t| - 1;
    var last := EscapeChar(t[n]);
    HtmlSpecialCharsAppend(t[..n], [t[n]]);
    assert t[..n] + [t[n]] == t;
    assert HtmlSpecialChars([t[n]]) == last + HtmlSpecialChars([]);
  }

  /** Escaping never puts trim-whitespace at either end of text that had none there. */
  lemma HtmlSpecialCharsKeepsEnds(t: string)
    ensures |t| > 0 && !IsTrimSpace(t[0]) && !IsTrimSpace(t[|t| - 1]) ==>
      var r := HtmlSpecialChars(t); |r| > 0 && !IsTrimSpace(r[0]) && !IsTrimSpace(r[|r| - 1])
  {
    if |t| > 0 {
      HtmlSpecialCharsFirst(t);
      HtmlSpecialCharsLast(t);
    }
  }

  /** Escaping leaves the two texts PHP's `empty()` rejects, "" and "0", as they are, and produces them from nothing else. */
  lemma HtmlSpecialCharsEmpty(t: string)
    ensures HtmlSpecialChars(t) == "" <==> t == ""
    ensures HtmlSpecialChars(t) == "0" <==> t == "0"
  {
    HtmlDecodeInverts(t);
    var z := "0";
    assert HtmlDecode(z) == [z[0]] + HtmlDecode(z[1..]);
    assert HtmlSpecialChars(z) == EscapeChar(z[0]) + HtmlSpecialChars(z[1..]);
  }

  /** Escaping text with no trim-whitespace at its ends keeps the ends clean, can be undone, and leaves `empty()`'s
      answer unchanged. */
  lemma EscapeTrimmed(t: string)
    requires |t| == 0 || (!IsTrimSpace(t[0]) && !IsTrimSpace(t[|t| - 1]))
    ensures var r := HtmlSpecialChars(t);
      && (|r| == 0 || (!IsTrimSpace(r[0]) && !IsTrimSpace(r[|r| - 1])))
      && HtmlDecode(r) == t
      && (EmptyText(Some(r)) <==> EmptyText(Some(t)))
  {
    HtmlDecodeInverts(t);
    HtmlSpecialCharsKeepsEnds(t);
    HtmlSpecialCharsEmpty(t);
  }

  // ---------------------------------------------------------------- strlen()

  /** Bytes in the UTF-8 encoding of one scalar value. */
  function Utf8Width(c: char): (w: nat)
    ensures 1 <= w <= 4
    ensures w == 1 <==> c as int < 0x80
  {
    if c as int < 0x80 then 1
    else if c as int < 0x800 then 2
    else if c as int < 0x1_0000 then 3
    else 4
  }

  /** `strlen($s)`: the number of BYTES of the UTF-8 encoding, between one and four per character. */
  function StrLen(s: string): (n: nat)
    ensures |s| <= n <= 4 * |s|
    ensures n == |s| <==> forall i :: 0 <= i < |s| ==> s[i] as int < 0x80
  {
    if |s| == 0 then 0 else Utf8Width(s[0]) + StrLen(s[1..])
  }
}

=== FILE: register.dfy ===
/** The registration page: the logged-in redirect, the POST handler and the rendering prologue that reads the
    preserved form data once, prints the flash messages and draws a new captcha. */
module RegisterPage {
  import opened Wrappers
  import opened Php
  import opened Sessions
  import opened Users
  import opened Helpers
  import opened Auth

  /** The POST fields; `None` for a field the request did not send. */
  datatype RegisterForm = RegisterForm(
    nombre: Option<string>,
    correo: Option<string>,
    contrasena: Option<string>,
    confirmar: Option<string>,
    mathCaptcha: Option<string>)

  /** The fields as the handler works with them: absent ones read as "", name and email sanitized,
      passwords and captcha answer verbatim. */
  datatype Submission = Submission(nombre: string, correo: string, pass1: string, pass2: string, captcha: string)

  function Read(f: RegisterForm): Submission {
    Submission(SanitizeInput(f.nombre.GetOr("")), SanitizeInput(f.correo.GetOr("")),
               f.contrasena.GetOr(""), f.confirmar.GetOr(""), f.mathCaptcha.GetOr(""))
  }

  /** One of name, email or password is `empty()`; the confirmation is not checked here. */
  predicate Missing(sub: Submission) {
    EmptyText(Some(sub.nombre)) || EmptyText(Some(sub.correo)) || EmptyText(Some(sub.pass1))
  }

  const MsgRequired := "Todos los campos son obligatorios."
  const MsgCaptcha := "Resuelve correctamente la verificación de seguridad."
  const MsgMismatch := "Las contraseñas no coinciden."
  const MsgCreated := "🎉 ¡Tu cuenta ha sido creada! Ya puedes iniciar sesión."
  const Dashboard := "dashboard.php"
  const LoginTarget := "login.php"

  /** The catch block: the error flash and the preserved name and email (never a password). */
  function Failed(s: Session, sub: Submission, msg: string): Session {
    SetError(s, msg).(formData := Some(FormData(sub.nombre, sub.correo)))
  }

  /** Every check of the handler passes, stated on the inputs directly. */
  ghost predicate Accepted(s: Session, st: Store, sub: Submission, svc: Services) {
    && !Missing(sub)
    && sub.captcha != ""
    && s.captchaAnswer == Some(Intval(sub.captcha))
    && sub.pass1 == sub.pass2
    && svc.validEmail(sub.correo)
    && StrLen(sub.pass1) >= MinPasswordBytes
    && !EmailTaken(st, sub.correo)
  }

  /** The handler up to the end of the POST block. A logged-in visitor is sent to the dashboard before anything
      else. Then the checks run in order: missing field, captcha, password confirmation, `registrarUsuario`; the
      first failing one sets its message as the error flash and preserves name and email, and the store is left as
      it was. A missing field or an empty captcha answer fails without consuming the pending captcha. When all pass
      the store gains the new row, the success flash is set and the visitor is sent to the login page, still not
      logged in. */
  function HandlePost(s: Session, st: Store, f: RegisterForm, svc: Services, salt: string, now: int)
    : (r: Response<()>)
    ensures EstaLogueado(s) ==> r == Response(s, st, Redirect(Dashboard))
    ensures var sub := Read(f);
      !EstaLogueado(s) && Missing(sub) ==> r == Response(Failed(s, sub, MsgRequired), st, Render(()))
    ensures var sub := Read(f);
      !EstaLogueado(s) && !Missing(sub) && sub.captcha == "" ==>
        r == Response(Failed(s, sub, MsgCaptcha), st, Render(()))
    ensures var sub := Read(f);
      !EstaLogueado(s) && !Missing(sub) && sub.captcha != "" && s.captchaAnswer != Some(Intval(sub.captcha)) ==>
        r == Response(Failed(s.(captchaAnswer := None), sub, MsgCaptcha), st, Render(()))
    ensures var sub := Read(f);
      !EstaLogueado(s) && !Missing(sub) && sub.captcha != "" && s.captchaAnswer == Some(Intval(sub.captcha))
        && sub.pass1 != sub.pass2 ==>
        r == Response(Failed(s.(captchaAnswer := None), sub, MsgMismatch), st, Render(()))
    ensures var sub := Read(f);
      var reg := RegistrarUsuario(st, sub.nombre, sub.correo, sub.pass1, svc, salt, now);
      !EstaLogueado(s) && !Missing(sub) && sub.captcha != "" && s.captchaAnswer == Some(Intval(sub.captcha))
        && sub.pass1 == sub.pass2 && reg.Failure? ==>
        r == Response(Failed(s.(captchaAnswer := None), sub, reg.error), st, Render(()))
    ensures r.outcome == Redirect(LoginTarget) <==> !EstaLogueado(s) && Accepted(s, st, Read(f), svc)
    ensures r.outcome == Redirect(LoginTarget) ==>
      && r.session == SetSuccess(s.(captchaAnswer := None), MsgCreated)
      && !EstaLogueado(r.session)
      && Success(r.store) == RegistrarUsuario(st, Read(f).nombre, Read(f).correo, Read(f).pass1, svc, salt, now)
    ensures r.outcome != Redirect(LoginTarget) ==> r.store == st
  {
    if EstaLogueado(s) then Response(s, st, Redirect(Dashboard))
    else
      var sub := Read(f);
      if Missing(sub) then Response(Failed(s, sub, MsgRequired), st, Render(()))
      else if sub.captcha == "" then Response(Failed(s, sub, MsgCaptcha), st, Render(()))
      else
        var check := VerifyMathCaptcha(s, sub.captcha);
        if !check.ok then Response(Failed(check.session, sub, MsgCaptcha), st, Render(()))
        else if sub.pass1 != sub.pass2 then Response(Failed(check.session, sub, MsgMismatch), st, Render(()))
        else
          match RegistrarUsuario(st, sub.nombre, sub.correo, sub.pass1, svc, salt, now)
          case Failure(msg) => Response(Failed(check.session, sub, msg), st, Render(()))
          case Success(st') => Response(SetSuccess(check.session, MsgCreated), st', Redirect(LoginTarget))
  }

  /** What the form shows: the printed flashes, the name and email to repopulate, and the captcha question. */
  datatype RegisterView = RegisterView(shown: Flashes, nombre: string, correo: string, question: string)

  /** The rendering prologue: `form_data` is read once and removed, `displayMessage` prints and clears the flashes,
      and a fresh captcha replaces any pending one. Login state is untouched. */
  function RenderForm(s: Session, a: Operand, b: Operand): (r: Rendered<RegisterView>)
    ensures r.view.nombre == (if s.formData.Some? then s.formData.value.nombre else "")
    ensures r.view.correo == (if s.formData.Some? then s.formData.value.correo else "")
    ensures r.session.formData.None?
    ensures r.view.shown == DisplayMessage(s).shown
    ensures EmptyText(r.session.success) && EmptyText(r.session.error)
    ensures r.session.captchaAnswer == Some(a + b) && CaptchaInRange(r.session)
    ensures r.session.usuarioId == s.usuarioId && r.session.loginTime == s.loginTime
    ensures r.session.loginCorreo == s.loginCorreo
  {
    var form := s.formData;
    var shown := DisplayMessage(s.(formData := None));
    var captcha := GenerateMathCaptcha(shown.session, a, b);
    Rendered(captcha.session,
             RegisterView(shown.shown,
                          if form.Some? then form.value.nombre else "",
                          if form.Some? then form.value.correo else "",
                          captcha.question))
  }

  /** A whole POST request to the page: the handler, then, unless it redirected, the rendering prologue with the
      two captcha operands drawn for the new form. */
  function RegisterRequest(s: Session, st: Store, f: RegisterForm, svc: Services, salt: string, now: int,
                           a: Operand, b: Operand): (r: Response<RegisterView>)
    ensures var h := HandlePost(s, st, f, svc, salt, now);
      h.outcome.Redirect? ==> r == Response(h.session, h.store, Redirect(h.outcome.target))
    ensures r.outcome.Render? ==>
      && r.store == st
      && r.outcome.view.nombre == Read(f).nombre && r.outcome.view.correo == Read(f).correo
      && r.outcome.view.shown.error == HandlePost(s, st, f, svc, salt, now).session.error
      && r.session.formData.None? && r.session.error.None?
      && r.session.captchaAnswer == Some(a + b)
    ensures r.outcome == Redirect(LoginTarget) || r.outcome == Redirect(Dashboard) || r.outcome.Render?
  {
    var h := HandlePost(s, st, f, svc, salt, now);
    match h.outcome
    case Redirect(target) => Response(h.session, h.store, Redirect(target))
    case Render(_) =>
      var page := RenderForm(h.session, a, b);
      Response(page.session, h.store, Render(page.view))
  }

  /** The messages a registration request can leave in the session. */
  const Messages: set<string> := {MsgCreated}

  /** No password is ever kept: at the end of a request the session holds no text it did not hold before, apart
      from the success flash of a completed registration. Name and email go to the form, not the session. */
  lemma RegisterKeepsNoSecrets(s: Session, st: Store, f: RegisterForm, svc: Services, salt: string, now: int,
                               a: Operand, b: Operand)
    ensures Strings(RegisterRequest(s, st, f, svc, salt, now, a, b).session) <= Strings(s) + Messages
  {
    var h := HandlePost(s, st, f, svc, salt, now);
    if h.outcome.Render? {
      var r := RegisterRequest(s, st, f, svc, salt, now, a, b);
      assert r.session.success.Some? ==> r.session.success == s.success;
      assert r.session.loginCorreo == s.loginCorreo;
    }
  }

  /** A request never breaks the table's invariant, and a rendered form always carries a captcha in range. */
  lemma RegisterKeepsInvariants(s: Session, st: Store, f: RegisterForm, svc: Services, salt: string, now: int,
                                a: Operand, b: Operand)
    requires Valid(st)
    requires CaptchaInRange(s)
    ensures Valid(RegisterRequest(s, st, f, svc, salt, now, a, b).store)
    ensures CaptchaInRange(RegisterRequest(s, st, f, svc, salt, now, a, b).session)
  {
    var sub := Read(f);
    if RegistrarUsuario(st, sub.nombre, sub.correo, sub.pass1, svc, salt, now).Success? {
      RegistrarKeepsValid(st, sub.nombre, sub.correo, sub.pass1, svc, salt, now);
    }
  }
}

=== FILE: sessions.dfy ===
/** The per-visitor session, made explicit: one optional slot per `$_SESSION` key the system uses. */
module Sessions {
  import opened Wrappers

  /** The non-sensitive registration fields kept for repopulating the form (`$_SESSION['form_data']`). */
  datatype FormData = FormData(nombre: string, correo: string)

  datatype Session = Session(
    usuarioId: Option<int>,        // $_SESSION['usuario_id']
    loginTime: Option<int>,        // $_SESSION['login_time']
    success: Option<string>,       // $_SESSION['success'], a flash message
    error: Option<string>,         // $_SESSION['error'], a flash message
    captchaAnswer: Option<int>,    // $_SESSION['captcha_answer']
    formData: Option<FormData>,    // $_SESSION['form_data']
    loginCorreo: Option<string>)   // $_SESSION['login_correo']

  /** A session with no attributes at all. */
  const Fresh: Session := Session(None, None, None, None, None, None, None)

  /** Every piece of text the session holds. */
  function Strings(s: Session): set<string> {
    (if s.success.Some? then {s.success.value} else {})
    + (if s.error.Some? then {s.error.value} else {})
    + (if s.formData.Some? then {s.formData.value.nombre, s.formData.value.correo} else {})
    + (if s.loginCorreo.Some? then {s.loginCorreo.value} else {})
  }

  /** Every pending captcha answer is one `generateMathCaptcha` can store: a sum of two operands in 1..9. */
  predicate CaptchaInRange(s: Session) {
    s.captchaAnswer.Some? ==> 2 <= s.captchaAnswer.value <= 18
  }
}

=== FILE: users.dfy ===
/** The `usuarios` table as a value: its rows in insertion order and the AUTO_INCREMENT counter. */
module Users {
  import opened Wrappers

  /** One row of `usuarios`; `contrasena` holds the password hash, never the password. */
  datatype User = User(id: int, nombre: string, correo: string, contrasena: string, fechaCreacion: int)

  datatype Store = Store(rows: seq<User>, nextId: int)

  /** The table as the database keeps it: every id below the counter and positive, ids and emails unique. */
  ghost predicate Valid(st: Store) {
    && 1 <= st.nextId
    && (forall i :: 0 <= i < |st.rows| ==> 1 <= st.rows[i].id < st.nextId)
    && (forall i, j :: 0 <= i < j < |st.rows| ==> st.rows[i].id != st.rows[j].id)
    && (forall i, j :: 0 <= i < j < |st.rows| ==> st.rows[i].correo != st.rows[j].correo)
  }

  /** The index of the first row satisfying `p`, as `SELECT ... LIMIT 1` returns it. */
  function FirstMatch(rows: seq<User>, p: User -> bool): (r: Option<nat>)
    ensures r.None? <==> forall i :: 0 <= i < |rows| ==> !p(rows[i])
    ensures r.Some? ==> r.value < |rows| && p(rows[r.value])
    ensures r.Some? ==> forall i :: 0 <= i < r.value ==> !p(rows[i])
  {
    if |rows| == 0 then None
    else if p(rows[0]) then Some(0)
    else match FirstMatch(rows[1..], p)
      case None => None
      case Some(k) => Some(k + 1)
  }

  /** A match among existing rows stays the first match after a row is appended. */
  lemma {:induction false} FirstMatchAppend(rows: seq<User>, u: User, p: User -> bool)
    ensures FirstMatch(rows + [u], p) ==
      (if FirstMatch(rows, p).Some? then FirstMatch(rows, p) else if p(u) then Some(|rows|) else None)
  {
    var all := rows + [u];
    var r := FirstMatch(all, p);
    if FirstMatch(rows, p).Some? {
      var k := FirstMatch(rows, p).value;
      assert all[k] == rows[k];
      assert r.Some? && r.value <= k;
      assert r.value == k;
    } else if p(u) {
      assert all[|rows|] == u;
      assert r.Some? && r.value == |rows|;
    } else {
      assert forall i :: 0 <= i < |all| ==> !p(all[i]) by {
        forall i | 0 <= i < |all| ensures !p(all[i]) {
          if i < |rows| { assert all[i] == rows[i]; }
        }
      }
    }
  }

  /** `SELECT * FROM usuarios WHERE correo = ? LIMIT 1`: the first row with exactly this email. */
  function FindByEmail(st: Store, correo: string): (r: Option<User>)
    ensures r.None? <==> forall i :: 0 <= i < |st.rows| ==> st.rows[i].correo != correo
    ensures r.Some? ==> r.value in st.rows && r.value.correo == correo
  {
    match FirstMatch(st.rows, (u: User) => u.correo == correo)
    case None => None
    case Some(k) => Some(st.rows[k])
  }

  /** `SELECT * FROM usuarios WHERE id = ? LIMIT 1`: the first row with this id. */
  function FindById(st: Store, id: int): (r: Option<User>)
    ensures r.None? <==> forall i :: 0 <= i < |st.rows| ==> st.rows[i].id != id
    ensures r.Some? ==> r.value in st.rows && r.value.id == id
  {
    match FirstMatch(st.rows, (u: User) => u.id == id)
    case None => None
    case Some(k) => Some(st.rows[k])
  }

  /** `INSERT INTO usuarios (nombre, correo, contraseña)`: one new row at the end with the next id,
      `fecha_creacion` defaulted to the current time; existing rows are kept as they were. */
  function Insert(st: Store, nombre: string, correo: string, hash: string, now: int): (r: Store)
    ensures |r.rows| == |st.rows| + 1 && r.rows[..|st.rows|] == st.rows
    ensures r.rows[|st.rows|] == User(st.nextId, nombre, correo, hash, now)
    ensures r.nextId > st.nextId
  {
    Store(st.rows + [User(st.nextId, nombre, correo, hash, now)], st.nextId + 1)
  }

  /** Inserting an email not yet present keeps the table valid. */
  lemma InsertKeepsValid(st: Store, nombre: string, correo: string, hash: string, now: int)
    requires Valid(st)
    requires FindByEmail(st, correo).None?
    ensures Valid(Insert(st, nombre, correo, hash, now))
  {
    var r := Insert(st, nombre, correo, hash, now);
    forall i | 0 <= i < |st.rows| ensures r.rows[i] == st.rows[i] {
      assert r.rows[..|st.rows|][i] == r.rows[i];
    }
  }

  /** In a valid table a row is found by its own id and by its own email. */
  lemma FindInValid(st: Store, k: nat)
    requires Valid(st) && k < |st.rows|
    ensures FindById(st, st.rows[k].id) == Some(st.rows[k])
    ensures FindByEmail(st, st.rows[k].correo) == Some(st.rows[k])
  {
    var byId := FirstMatch(st.rows, (u: User) => u.id == st.rows[k].id);
    var byEmail := FirstMatch(st.rows, (u: User) => u.correo == st.rows[k].correo);
    assert byId.Some? && byId.value <= k;
    assert byEmail.Some? && byEmail.value <= k;
  }
}

=== FILE: wrappers.dfy ===
/** Option and Result, shared by every module. */
module Wrappers {

  /** A value that may be absent: PHP's `null`, or a key missing from an array. */
  datatype Option<+T> = None | Some(value: T) {

    /** The wrapped value, or `default` when absent: PHP's `$x ?? default`. */
    function GetOr(default: T): T {
      match this
      case Some(v) => v
      case None => default
    }
  }

  /** The outcome of an operation that the source ends either normally or by throwing an `Exception`. */
  datatype Result<+R, +E> = Success(value: R) | Failure(error: E)
}
